=== FILE: README.md ===
# spigot-monitor core in Dafny

spigot-monitor runs a Minecraft (Spigot) server as a child process. It reads the
server's console, keeps a bounded history of what it saw (the *scrollback*) for a
web page that polls for new lines, and forwards operator commands to the server.
This project models the two sequential parts of that program and proves
properties of them:

* **The scrollback of `SpigotData`** (wrapper.py). The scrollback is a deque of at
  most 512 lines. It comes with a counter `msg_num` that counts the appended lines.
  `scrollback_since(msg_id)` answers "what came after line `msg_id`". Here
  `Wrapper.SpigotData` is a class with the fields the source updates in place.
  `AddMessage` is specified by the pure function `Pushed`, and a run of appends by
  `PushedAll`. `ClearScrollback` states its new state outright: an empty deque and
  a zero counter. Lemmas prove that the deque always holds the newest 512 lines of
  the history, and that `len(scrollback) == min(msg_num, 512)` holds as long as only
  `add_message` and `clearscrollback` touch it. `ScrollbackSince` is modelled as
  written, as `SinceAsWritten`, including `islice`'s ValueError for a start that is
  negative or, in CPython 3.4 to 3.6, above `sys.maxsize`. `SinceIntended` is a corrected query with the
  off-by-one removed (see Findings).
* **The console-line classifier and the command router** (spigot.py).
  `ParseEvent` tokenises a line on single spaces. It then updates the startup time
  and the player list by fixed token positions, first match wins. `CommandHandler`
  echoes the command into the scrollback. It then clears the scrollback, lists the
  players, or queues the command for the server. `InfoMessage` takes the clock
  reading as a parameter. Python exceptions are modelled as outcome values, not as
  preconditions: `TooFewWords`, `AbsentPlayer` and `ShortDeathLine` for
  `parse_event`, and `Rejected` for `islice`'s ValueError.

Module layout: `Text` models the Python built-ins the code relies on (`str.split`,
`str.join`, `str.lower`, slicing, `list.remove`, `str(int)`). `GameState` holds the
data classes of spigot.py. `Wrapper` is wrapper.py. `Spigot` holds the functions of
spigot.py. wrapper.py and spigot.py import each other, and Dafny modules cannot, so
the data holders of spigot.py have their own module.

The `clear` command (spigot.py:122-124) empties the deque directly. It does not
call `clearscrollback`, so `msg_num` keeps counting. `CommandHandler` says so in
its contract: after `clear` the deque no longer holds `min(msg_num, 512)` lines.
`ClearKeepsCounter` shows what this costs a polling client.

Facts about the code that the model keeps:
* `words[3][1:-3]` strips one leading and three trailing characters from the startup token;
* `scrollback_since` gives an empty answer, not an error, for an id above the counter, as long as the slice start `msg_id - id_first_msg + 1` is at most `sys.maxsize`;
* the roster is a list, so duplicate names are possible;
* the name is read from token 2 (the Spigot console layout `[12:00:00 INFO]: Steve ...`);
* the death checks compare tokens without lower-casing them.

## Model

| member | source | states |
|---|---|---|
| `Text.Split` | spigot.py:59 | `line.split(' ')` always gives at least one token, and no token contains the separator |
| `Text.JoinSplit` | spigot.py:59 | joining the tokens with the separator gives back the line, so tokenising loses nothing, not even empty tokens |
| `Text.SplitJoin` | spigot.py:59 | a line made of separator-free words joined by single spaces tokenises back into exactly those words |
| `Text.SplitHead` | spigot.py:75 | `s.split('[')[0]` is a prefix of `s` without `[`: either all of `s`, or the part just before the first `[` |
| `Text.JoinShape` | spigot.py:152 | `Text.Join`, the model of `str.join`, is specified here: `', '.join(players)` has the names' total length plus one separator per gap, starts with the first name, ends with the last, and the separator follows the first name |
| `Text.Lower` | spigot.py:61 | lower-casing keeps the length and folds each character on its own |
| `Text.LowerIdempotent` | spigot.py:117 | lower-casing a lower-cased text changes nothing |
| `Text.LowerKeepsNonLetter` | spigot.py:67 | `<` and `>` (any non-letter) occur in the lower-cased token exactly when they occur in the raw token |
| `Text.SliceBound` | spigot.py:71 | a slice bound in range is kept, a negative one counts from the end, and one outside the text is clamped to its start or end |
| `Text.PySlice` | spigot.py:71 | a Python slice never fails; it is the contiguous run from the normalised start bound to the normalised stop bound, and empty when they cross |
| `Text.IndexOf` | spigot.py:84 | finds the first occurrence: the element is there and not earlier |
| `Text.RemoveFirst` | spigot.py:84 | `list.remove` deletes exactly the first occurrence and keeps everything else in order |
| `Text.RemoveFirstMultiset` | spigot.py:84 | `list.remove` takes exactly one copy of the name out of the list's multiset |
| `Text.AppendThenRemove` | spigot.py:74-84 | a name not yet online that logs in and then leaves restores the player list |
| `Text.NatToString` | spigot.py:151 | `str(n)` is non-empty decimal digits, with a leading zero only for 0 |
| `Text.NatToStringRoundTrip` | spigot.py:151 | reading the digits of `str(n)` back gives `n` |
| `GameState.DiagData.constructor` | spigot.py:40-41 | the startup time starts at 0 |
| `GameState.GameData.constructor` | spigot.py:48-50 | no players, status RUNNING |
| `Wrapper.Pushed` | wrapper.py:55 | an append makes the deque length min(old length + 1, 512) |
| `Wrapper.PushedSpec` | wrapper.py:43 | after an append the message is the last entry; the entries before it are the old ones in order, minus the oldest exactly when the deque held 512 |
| `Wrapper.PushedAllWindow` | wrapper.py:43-56 | after any number of appends the deque holds the newest 512 lines of everything appended, oldest first |
| `Wrapper.FreshHistory` | wrapper.py:43-56 | starting from `__init__`, k appends leave min(k, 512) lines, namely the last of the k |
| `Wrapper.PushedAllKeepsCount` | wrapper.py:55-56 | appends keep `len(scrollback) == min(msg_num, 512)` when the counter grows with them |
| `Wrapper.FirstId` | wrapper.py:77-80 | `id_first_msg` plus the number of retained lines is `msg_num` |
| `Wrapper.SinceAsWritten` | wrapper.py:74-84 | `None` iff `msg_id == msg_num`; an error iff the start `msg_id - id_first_msg + 1` is negative or (CPython 3.4 to 3.6) above `sys.maxsize`; otherwise a suffix of the deque of length max(0, len - start) |
| `Wrapper.SinceIntended` | wrapper.py:67-75 | the corrected query: `None` iff current, as the doc comment says; otherwise a suffix of the deque. It rejects `msg_id > msg_num`, which is this model's choice: the doc comment does not cover such ids |
| `Wrapper.SinceIntendedExact` | wrapper.py:67-72 | on a counted deque the corrected query returns a retained line iff its id is above `msg_id` |
| `Wrapper.SinceIntendedEvicted` | wrapper.py:77-84 | an id from the evicted region answers like the id just before the oldest retained line: every retained line |
| `Wrapper.AsWrittenDropsFirstNew` | wrapper.py:82-84 | for an id inside the retained window the source's answer is the corrected answer minus its first line, the one with id `msg_id + 1` |
| `Wrapper.AsWrittenMissesOnlyLine` | wrapper.py:82-84 | one line appended and none seen: the source answers with no lines, the corrected query with that line |
| `Wrapper.AsWrittenPastCounter` | wrapper.py:82-84 | an id above `msg_num`, whose start is at most `sys.maxsize`, yields an empty answer in the source, not an error |
| `Wrapper.AsWrittenHugeId` | wrapper.py:82-84 | on an empty deque, the id `sys.maxsize` makes `islice` raise ValueError in CPython 3.4 to 3.6, while one less gives an empty answer |
| `Wrapper.AsWrittenIsOneBehind` | wrapper.py:82-84 | inside the retained window the source's answer for `msg_id` is the corrected answer for `msg_id + 1`, so a client that counts the lines it receives loses only the first line and nothing after it |
| `Wrapper.SinceZeroAfterOverflow` | wrapper.py:79-84 | after more than 513 appends the source rejects `since(0)`; the corrected query answers the newest 512 lines |
| `Wrapper.SpigotData.constructor` | wrapper.py:36-47 | empty deque, counter 0, empty command queue, fresh diagnostic and game objects, status 0 |
| `Wrapper.SpigotData.AddMessage` | wrapper.py:49-56 | the deque becomes `Pushed(old deque, message)` and `msg_num` grows by exactly 1; the counted relation is preserved |
| `Wrapper.SpigotData.ClearScrollback` | wrapper.py:58-63 | empty deque and `msg_num == 0`, so the counted relation holds again |
| `Wrapper.SpigotData.ScrollbackSince` | wrapper.py:65-84 | the answer is `SinceAsWritten` of the current state; nothing is modified, so two calls without an append in between agree |
| `Spigot.StartupText` | spigot.py:71 | the startup token is its first character, the kept text, then its last three characters; tokens of 4 characters or fewer give "" |
| `Spigot.Words` | spigot.py:59 | `line.split(' ')` gives at least one token, none containing a space, and joining them with single spaces gives back the line |
| `Spigot.JoinedName` | spigot.py:75 | the joined name is the token cut before its first `[` |
| `Spigot.IsChat` | spigot.py:61-67 | the lower-cased token 2 holds both `<` and `>` exactly when the raw token does |
| `Spigot.Kind` | spigot.py:61-84 | for each branch, the exact condition for taking it: fewer than 4 tokens; otherwise chat; otherwise `done` in token 2; otherwise `logged` in token 3; otherwise `left` in token 3; lower-cased comparisons, first match wins |
| `Spigot.DeathReport` | spigot.py:86-98 | a `fell` line reports a fall, a `blown` line an explosion by token 7, a `slain` line an attack by token 6, tried in that order, always for the player in token 2; nothing is reported iff there are fewer than 5 tokens or none of the three words is there; the call fails iff a `blown` line has fewer than 8 tokens or a `slain` line fewer than 7 (and token 3 is not `fell`) |
| `Spigot.ParseEvent` | spigot.py:55-98 | fewer than 4 tokens fail with nothing changed; chat lines change nothing; `done` sets only the startup time; `logged` appends the cut name to the end; `left` removes the first occurrence of the raw name or fails with nothing changed; then the death checks |
| `Spigot.InfoMessage` | spigot.py:101-109 | the result is `[`, the time, ` SPIGOT-MONITOR] `, then the message; time and message can be read back |
| `Spigot.ListReply` | spigot.py:140-154 | no players: only the "no players online" line; one or more: header, the names joined by ", ", then "End of players list." |
| `Spigot.ListHeaderCount` | spigot.py:151 | the plural header carries decimal digits without a leading zero that read back as the number of players |
| `Spigot.ListTwoPlayers` | spigot.py:151-153 | with Steve and Alex online the reply is "There are 2 players online:", "Steve, Alex", "End of players list." |
| `Spigot.ActionOf` | spigot.py:117-155 | the branch taken: `clear`, `quit-all`, or `list`/`who` exactly when the lower-cased command equals that keyword; anything else is forwarded |
| `Spigot.ActionIgnoresCase` | spigot.py:117 | keyword matching uses the whole command lower-cased |
| `Spigot.CommandHandler` | spigot.py:112-157 | always appends `> command` first; `clear` empties the deque but keeps counting, which breaks the counted relation; `quit-all` queues `stop\n`; `list`/`who` queue nothing; anything else is queued as `command + "\n"` with its casing kept |
| `Spigot.ListPlayers` | spigot.py:140-154 | the list branch appends exactly `ListReply(players)` and counts each line |
| `Spigot.ClearKeepsCounter` | spigot.py:122-124 | after `clear`, a client that was current is shown none of the next k ≤ `msg_num` lines, even by the corrected query; had the counter been reset, a client starting over from id 0 would get all of them from the corrected query, and all but the first from the query as written |

## Left out

- monitor.py: process spawning, the selector-based console reader, the restart loop, the pipes, events and threads. Its only sequential step, `parse_event` then `add_message` for each line, is the two operations modelled here, one after the other. monitor.py also assigns a dict to `game.players` once the server stops; that is not modelled.
- webapp.py, static/frontpage.js and `SpigotWrapperPlugin` (wrapper.py:87-119): HTTP routing, templates, query parsing and browser polling are plumbing around the operations modelled here.
- Spigot.CommandHandler: for `quit-all` it models the echo and the queued `stop\n`, then returns `ShutdownPending`. The wait for the worker to exit, the one-second sleep, the queued `quit\n` and the SIGTERM to the monitor itself are concurrency and signals.
- Spigot.ParseEvent: does not model the ValueError that `float()` raises on a malformed startup duration. The startup time is kept as the text `float()` would read, with "0" for the initial integer 0, because floating point is not modelled.
- Spigot.ParseEvent: the `print` calls are left out. For death lines the player and cause that would be printed are returned in the outcome instead.
- Text.Lower: folds only ASCII `A`-`Z`, while Python's `str.lower` is Unicode-aware. This changes no keyword comparison here. The only non-ASCII character that lowers to an ASCII one is the Kelvin sign, which lowers to `k`, and no keyword contains a `k`.
- Wrapper.SpigotData.ScrollbackSince: returns the lines as a sequence. The lazy `islice` iterator, and its failure if the deque changes while it is read, are not modelled.
- `sd.lock`, `close_event` and the thread-safety of `Queue`: the command queue is a plain sequence, and every operation runs alone.
- `SpigotData.status` and `GameData.status` are only set by the constructors. Their other writers are in monitor.py.
- Wrapper.SinceAsWritten: `islice` is modelled as in CPython 3.4 to 3.6, the code's era, where a start above `sys.maxsize` (taken as 2^63 - 1, its value on a 64-bit build) raises ValueError. From CPython 3.7 on such a start is clipped to `sys.maxsize`, and the answer is no lines.
- `strftime`: the clock reading is a parameter of `InfoMessage`, `ListReply` and `CommandHandler`.

## Findings

| source | as written | input that shows it | evidently intended | confidence | as-written member | corrected member |
|---|---|---|---|---|---|---|
| wrapper.py:82 | `cutoff_index = msg_id - id_first_msg + 1` skips the first line after `msg_id`, because ids start at 1 | deque `["a"]`, `msg_num` 1, `msg_id` 0: the answer has no lines | start at `msg_id - id_first_msg`, clamped at 0 (the model also rejects an id above `msg_num`, its own choice, not the source's) | not executed; high (the web page adds the answer's length to its own id, so it misses the first new line after it loads and then stays one id behind, missing nothing more; `Wrapper.AsWrittenIsOneBehind`) | `Wrapper.AsWrittenDropsFirstNew` | `Wrapper.SinceIntendedExact` |
| spigot.py:123 | `clear` calls `sd.scrollback.clear()`, which leaves `msg_num` unchanged | `msg_num` 3, then `clear` (count becomes 4 with the echo), then 2 new lines: a client at id 4 gets no lines; after a reset a reloaded page (id 0) gets both from the corrected query, only the second from the query as written | call `sd.clearscrollback()`, which resets the counter | not executed; medium | `Spigot.ClearKeepsCounter` | `Wrapper.SpigotData.ClearScrollback` |

`SpigotData.ScrollbackSince` and `CommandHandler` keep the as-written behaviour,
because they model what the program does. The intended properties are proved about
`SinceIntended` (`SinceIntendedExact`, `SinceIntendedEvicted`) and about
`ClearScrollback`. The lemmas named in the as-written cells state each discrepancy
in general, not only for the example input; `AsWrittenMissesOnlyLine` is the
example input of the first row.

=== FILE: game_state.dfy ===
/** The data holders of spigot.py: the server status enumeration and the
    two objects that parsed console lines update in place. */
module GameState {

  /** `SpigotState`: STOPPED = 0, STARTING = 1, RUNNING = 2. */
  datatype SpigotState = Stopped | Starting | Running

  /** `DiagData`: diagnostic values of the current server run. */
  class DiagData {
    /** The startup duration, kept as the text `float()` would read; "0" until
        a `Done` line arrives (the source starts it at the integer 0). */
    var startupTime: string

    constructor ()
      ensures startupTime == "0"
    {
      startupTime := "0";
    }
  }

  /** `GameData`: the players online, in the order they logged in. */
  class GameData {
    var players: seq<string>
    var status: SpigotState

    constructor ()
      ensures players == [] && status == Running
    {
      players := [];
      status := Running;
    }
  }
}

=== FILE: spigot.dfy ===
/** spigot.py: classifying console lines (`parse_event`), informational
    messages (`info_message`) and routing operator commands
    (`command_handler`). */
module Spigot {
  import opened Text
  import opened GameState
  import opened Wrapper

  /** `line.split(' ')`: tokens on single spaces, empty tokens included, so
      that the tokens joined by single spaces give back the line. */
  function Words(line: string): (w: seq<string>)
    ensures |w| >= 1
    ensures forall i :: 0 <= i < |w| ==> ' ' !in w[i]
    ensures Join(w, " ") == line
  {
    JoinSplit(line, ' ');
    Split(line, ' ')
  }

  /** `words[3][1:-3]`: the duration inside a `(12.345s)!` token, with one
      leading and three trailing characters removed. */
  function StartupText(token: string): (r: string)
    ensures |token| >= 4 ==> token == [token[0]] + r + token[|token| - 3..]
    ensures |token| <= 4 ==> r == ""
  {
    PySlice(token, 1, -3)
  }

  /** `words[2].split('[')[0]`: the name in front of a `Steve[/1.2.3.4:5]`
      token, i.e. the longest prefix without `[`. */
  function JoinedName(token: string): (r: string)
    ensures r <= token && '[' !in r
    ensures r == token || token[|r|] == '['
  {
    SplitHead(token, '[');
    Split(token, '[')[0]
  }

  /** A token whose lower-cased form holds both `<` and `>` marks a chat
      line; lower-casing changes neither mark, so the raw token decides. */
  predicate IsChat(token: string)
    ensures IsChat(token) <==> '<' in token && '>' in token
  {
    LowerKeepsNonLetter(token, '<');
    LowerKeepsNonLetter(token, '>');
    '<' in Lower(token) && '>' in Lower(token)
  }

  /** Which branch of the first `if`/`elif` chain of `parse_event` a line takes. */
  datatype LineKind = ShortLine | ChatLine | StartupLine | JoinLine | LeaveLine | OtherLine

  /** First match wins: chat, then `done` in token 2, then `logged`, then
      `left` in token 3, all compared lower-cased. */
  function Kind(words: seq<string>): (k: LineKind)
    ensures k == ShortLine <==> |words| < 4
    ensures k == ChatLine <==> |words| >= 4 && IsChat(words[2])
    ensures k == StartupLine <==>
      |words| >= 4 && !IsChat(words[2]) && Lower(words[2]) == "done"
    ensures k == JoinLine <==>
      |words| >= 4 && !IsChat(words[2]) && Lower(words[2]) != "done" &&
      Lower(words[3]) == "logged"
    ensures k == LeaveLine <==>
      |words| >= 4 && !IsChat(words[2]) && Lower(words[2]) != "done" &&
      Lower(words[3]) != "logged" && Lower(words[3]) == "left"
  {
    if |words| < 4 then ShortLine
    else if IsChat(words[2]) then ChatLine
    else if Lower(words[2]) == "done" then StartupLine
    else if Lower(words[3]) == "logged" then JoinLine
    else if Lower(words[3]) == "left" then LeaveLine
    else OtherLine
  }

  /** How a death is reported. */
  datatype Cause = Fall | Explosion(attacker: string) | Attack(attacker: string)

  /** How a call to `parse_event` ends: normally (with the death it reported,
      if any) or with the exception the source raises. */
  datatype ParseOutcome =
    | Quiet
    | Died(player: string, cause: Cause)
    | TooFewWords     // IndexError: fewer than 4 tokens
    | AbsentPlayer    // ValueError: `players.remove` of a name not online
    | ShortDeathLine  // IndexError: a `blown`/`slain` line too short for its attacker token

  /** The trailing checks of `parse_event`, reached by every line that is not
      a chat line and did not fail: compared case-sensitively. */
  function DeathReport(words: seq<string>): (r: ParseOutcome)
    requires |words| >= 4
    ensures r.Died? ==> r.player == words[2]
    ensures |words| >= 5 && words[3] == "fell" ==> r == Died(words[2], Fall)
    ensures |words| >= 8 && words[3] != "fell" && words[4] == "blown" ==>
      r == Died(words[2], Explosion(words[7]))
    ensures |words| >= 7 && words[3] != "fell" && words[4] != "blown" && words[4] == "slain" ==>
      r == Died(words[2], Attack(words[6]))
    ensures r == Quiet <==>
      |words| < 5 || (words[3] != "fell" && words[4] != "blown" && words[4] != "slain")
    ensures r == ShortDeathLine <==>
      |words| >= 5 && words[3] != "fell" &&
      ((words[4] == "blown" && |words| < 8) || (words[4] == "slain" && |words| < 7))
  {
    if |words| < 5 then Quiet
    else if words[3] == "fell" then Died(words[2], Fall)
    else if words[4] == "blown" then
      (if |words| < 8 then ShortDeathLine else Died(words[2], Explosion(words[7])))
    else if words[4] == "slain" then
      (if |words| < 7 then ShortDeathLine else Died(words[2], Attack(words[6])))
    else Quiet
  }

  /** `parse_event`: update the startup time and the player list from one
      console line. */
  method ParseEvent(sd: SpigotData, line: string) returns (outcome: ParseOutcome)
    modifies sd.diag`startupTime, sd.game`players
    ensures var w := Words(line);
      sd.diag.startupTime ==
        (if Kind(w) == StartupLine then StartupText(w[3]) else old(sd.diag.startupTime))
    ensures var w := Words(line);
      sd.game.players ==
        match Kind(w)
        case JoinLine => old(sd.game.players) + [JoinedName(w[2])]
        case LeaveLine =>
          if w[2] in old(sd.game.players) then RemoveFirst(old(sd.game.players), w[2])
          else old(sd.game.players)
        case _ => old(sd.game.players)
    ensures var w := Words(line);
      outcome ==
        match Kind(w)
        case ShortLine => TooFewWords
        case ChatLine => Quiet
        case LeaveLine => if w[2] in old(sd.game.players) then DeathReport(w) else AbsentPlayer
        case _ => DeathReport(w)
  {
    var words := Words(line);
    if |words| < 4 {
      return TooFewWords;
    }
    var firstWord := Lower(words[2]);
    var secWord := Lower(words[3]);
    var nwords := |words|;

    if '<' in firstWord && '>' in firstWord {
      return Quiet;
    }

    if firstWord == "done" {
      sd.diag.startupTime := StartupText(words[3]);
    } else if secWord == "logged" {
      sd.game.players := sd.game.players + [JoinedName(words[2])];
    } else if secWord == "left" {
      if words[2] !in sd.game.players {
        return AbsentPlayer;
      }
      sd.game.players := RemoveFirst(sd.game.players, words[2]);
    }

    if nwords < 5 {
      return Quiet;
    }
    if words[3] == "fell" {
      return Died(words[2], Fall);
    } else if words[4] == "blown" {
      if nwords < 8 {
        return ShortDeathLine;
      }
      return Died(words[2], Explosion(words[7]));
    } else if words[4] == "slain" {
      if nwords < 7 {
        return ShortDeathLine;
      }
      return Died(words[2], Attack(words[6]));
    }
    return Quiet;
  }

  /** `info_message`, with the `%H:%M:%S` clock reading passed in: the time
      and the message can both be read back from the result. */
  function InfoMessage(time: string, message: string): (r: string)
    ensures |r| == |time| + |message| + 18
    ensures r[0] == '[' && r[1..|time| + 1] == time
    ensures r[|time| + 1..|time| + 18] == " SPIGOT-MONITOR] "
    ensures r[|r| - |message|..] == message
  {
    "[" + time + " SPIGOT-MONITOR] " + message
  }

  /** The lines the `list`/`who` command adds after the echo. */
  function ListReply(players: seq<string>, time: string): (r: seq<string>)
    ensures |players| == 0 ==> r == [InfoMessage(time, "There are no players online.   :-(")]
    ensures |players| >= 1 ==> |r| == 3 && r[1] == Join(players, ", ") && r[2] == "End of players list."
    ensures |players| == 1 ==> r[0] == InfoMessage(time, "There is 1 player online:")
  {
    var num := |players|;
    if num == 0 then [InfoMessage(time, "There are no players online.   :-(")]
    else if num == 1 then [InfoMessage(time, "There is 1 player online:"), players[0], "End of players list."]
    else [InfoMessage(time, "There are " + NatToString(num) + " players online:"),
          Join(players, ", "), "End of players list."]
  }

  /** The player count in the plural header reads back as the number of players. */
  lemma ListHeaderCount(players: seq<string>, time: string)
    requires |players| >= 2
    ensures exists digits: string ::
      && |digits| >= 1 && IsDigits(digits) && digits[0] != '0'
      && DigitsValue(digits) == |players|
      && ListReply(players, time)[0] == InfoMessage(time, "There are " + digits + " players online:")
  {
    NatToStringRoundTrip(|players|);
    var digits := NatToString(|players|);
    assert ListReply(players, time)[0] == InfoMessage(time, "There are " + digits + " players online:");
  }

  /** Two players online: the plural header, then the names joined by ", ". */
  lemma ListTwoPlayers(time: string)
    ensures ListReply(["Steve", "Alex"], time) ==
      [InfoMessage(time, "There are 2 players online:"), "Steve, Alex", "End of players list."]
  {
    assert NatToString(2) == "2";
    assert ["Steve", "Alex"][1..] == ["Alex"];
    assert Join(["Steve", "Alex"], ", ") == "Steve, Alex";
    assert "There are " + "2" + " players online:" == "There are 2 players online:";
  }

  /** How `command_handler` returned: normally, or at the point where
      `quit-all` starts waiting for the console worker to exit. */
  datatype Handled = Returned | ShutdownPending

  /** What `command_handler` does with a command, decided on the whole
      command lower-cased. */
  datatype Action = ClearAction | QuitAllAction | ListAction | ForwardAction

  function ActionOf(command: string): (a: Action)
    ensures a == ClearAction <==> Lower(command) == "clear"
    ensures a == QuitAllAction <==> Lower(command) == "quit-all"
    ensures a == ListAction <==> Lower(command) == "list" || Lower(command) == "who"
  {
    var low := Lower(command);
    if low == "clear" then ClearAction
    else if low == "quit-all" then QuitAllAction
    else if low == "list" || low == "who" then ListAction
    else ForwardAction
  }

  /** Keyword matching ignores case: a command and its lower-cased form are
      handled alike. */
  lemma ActionIgnoresCase(command: string)
    ensures ActionOf(Lower(command)) == ActionOf(command)
  {
    LowerIdempotent(command);
  }

  /** `command_handler`: echo the command into the scrollback, then act on
      its keyword or forward it, with its casing, to the queue. */
  method CommandHandler(sd: SpigotData, command: string, time: string) returns (h: Handled)
    requires sd.Valid()
    modifies sd`scrollback, sd`msgNum, sd`commands
    ensures sd.Valid()
    ensures ActionOf(command) == ClearAction ==> !sd.Counted()
    ensures ActionOf(command) != ClearAction && old(sd.Counted()) ==> sd.Counted()
    ensures ActionOf(command) == ClearAction ==>
      sd.scrollback == [] && sd.msgNum == old(sd.msgNum) + 1 &&
      sd.commands == old(sd.commands) && h == Returned
    ensures ActionOf(command) == QuitAllAction ==>
      sd.scrollback == Pushed(old(sd.scrollback), "> " + command) &&
      sd.msgNum == old(sd.msgNum) + 1 &&
      sd.commands == old(sd.commands) + ["stop\n"] && h == ShutdownPending
    ensures ActionOf(command) == ListAction ==>
      var added := ["> " + command] + ListReply(sd.game.players, time);
      sd.scrollback == PushedAll(old(sd.scrollback), added) &&
      sd.msgNum == old(sd.msgNum) + |added| &&
      sd.commands == old(sd.commands) && h == Returned
    ensures ActionOf(command) == ForwardAction ==>
      sd.scrollback == Pushed(old(sd.scrollback), "> " + command) &&
      sd.msgNum == old(sd.msgNum) + 1 &&
      sd.commands == old(sd.commands) + [command + "\n"] && h == Returned
  {
    var action := ActionOf(command);
    ghost var before := sd.scrollback;
    var echo := "> " + command;
    sd.AddMessage(echo);

    if action == ClearAction {
      sd.scrollback := [];
      return Returned;
    } else if action == QuitAllAction {
      sd.commands := sd.commands + ["stop\n"];
      return ShutdownPending;
    } else if action == ListAction {
      ListPlayers(sd, time);
      PushedAllSnoc(before, [], echo);
      PushedAllAppend(before, [echo], ListReply(sd.game.players, time));
      if old(sd.Counted()) {
        PushedAllKeepsCount(before, old(sd.msgNum), [echo] + ListReply(sd.game.players, time));
      }
      return Returned;
    } else {
      sd.commands := sd.commands + [command + "\n"];
      return Returned;
    }
  }

  /** The `list`/`who` branch of `command_handler` after the echo: report
      the players online without forwarding anything. */
  method ListPlayers(sd: SpigotData, time: string)
    requires sd.Valid()
    modifies sd`scrollback, sd`msgNum
    ensures sd.Valid()
    ensures sd.scrollback == PushedAll(old(sd.scrollback), ListReply(sd.game.players, time))
    ensures sd.msgNum == old(sd.msgNum) + |ListReply(sd.game.players, time)|
  {
    ghost var before := sd.scrollback;
    ghost var reply := ListReply(sd.game.players, time);
    assert before == PushedAll(before, []);
    var num := |sd.game.players|;
    if num == 0 {
      sd.AddMessage(InfoMessage(time, "There are no players online.   :-("));
      PushedAllSnoc(before, [], reply[0]);
      assert reply == [] + [reply[0]];
      return;
    } else if num == 1 {
      sd.AddMessage(InfoMessage(time, "There is 1 player online:"));
      PushedAllSnoc(before, [], reply[0]);
      sd.AddMessage(sd.game.players[0]);
    } else {
      sd.AddMessage(InfoMessage(time, "There are " + NatToString(num) + " players online:"));
      PushedAllSnoc(before, [], reply[0]);
      sd.AddMessage(Join(sd.game.players, ", "));
    }
    assert [] + [reply[0]] == [reply[0]];
    PushedAllSnoc(before, [reply[0]], reply[1]);
    assert [reply[0]] + [reply[1]] == [reply[0], reply[1]];
    sd.AddMessage("End of players list.");
    PushedAllSnoc(before, [reply[0], reply[1]], reply[2]);
    assert reply == [reply[0], reply[1]] + [reply[2]];
  }

  /** `clear` empties the deque but keeps counting, so the deque no longer
      holds `min(msg_num, 512)` lines; a client that was current right after
      the clear is then shown none of the next `k <= msg_num` lines, even by
      the corrected query. Had the counter been reset, as `clearscrollback`
      does, a client that starts over from id 0 (a reloaded page) would get
      every new line from the corrected query, and all but the first from the
      query as written; one still holding its id from before the reset would
      not, since that id is above the reset counter. */
  lemma ClearKeepsCounter(counter: nat, ms: seq<string>)
    requires counter >= 1 && |ms| <= counter && counter + |ms| <= MaxLen
    ensures |PushedAll([], ms)| != Min(counter + |ms|, MaxLen)
    ensures SinceIntended(PushedAll([], ms), counter + |ms|, counter) ==
      (if |ms| == 0 then UpToDate else Lines([]))
    ensures SinceAsWritten(PushedAll([], ms), counter + |ms|, counter) ==
      (if |ms| == 0 then UpToDate else Lines([]))
    ensures |ms| > 0 ==> SinceIntended(PushedAll([], ms), |ms|, 0) == Lines(ms)
    ensures |ms| > 0 ==> SinceAsWritten(PushedAll([], ms), |ms|, 0) == Lines(ms[1..])
  {
    var buf := PushedAll([], ms);
    FreshHistory(ms);
    assert |buf| == |ms| && buf == ms;
    assert FirstId(counter + |ms|) == 0;
    assert FirstId(|ms|) == 0;
    assert ms[0..] == ms;
  }
}

=== FILE: text.dfy ===
/** Models of the Python string and list built-ins the monitor relies on:
    `str.split` with a one-character separator, `str.join`, `str.lower`,
    slicing with negative bounds, `list.remove` and `str(int)`. */
module Text {

  /** `s.split(c)`: the pieces between occurrences of `c`, keeping empty
      pieces (two separators in a row, or one at either end, give an
      empty string), so that there is always at least one piece. */
  function Split(s: string, c: char): (r: seq<string>)
    ensures |r| >= 1
    ensures forall i :: 0 <= i < |r| ==> c !in r[i]
    decreases |s|
  {
    if |s| == 0 then [""]
    else
      var rest := Split(s[1..], c);
      if s[0] == c then [""] + rest
      else [[s[0]] + rest[0]] + rest[1..]
  }

  /** The total length of the pieces. */
  function SumLen(parts: seq<string>): nat
    decreases |parts|
  {
    if |parts| == 0 then 0 else |parts[0]| + SumLen(parts[1..])
  }

  /** `sep.join(parts)`. */
  function Join(parts: seq<string>, sep: string): (r: string)
    ensures |parts| == 1 ==> r == parts[0]
    ensures |parts| >= 2 ==> r == parts[0] + sep + Join(parts[1..], sep)
    decreases |parts|
  {
    if |parts| == 0 then ""
    else if |parts| == 1 then parts[0]
    else parts[0] + sep + Join(parts[1..], sep)
  }

  /** A join holds every piece once, in order, with one separator between
      neighbours and none at either end: its length is the pieces' lengths
      plus one separator per gap, it starts with the first piece, ends with
      the last, and the separator follows the first piece. */
  lemma {:induction false} JoinShape(parts: seq<string>, sep: string)
    requires |parts| >= 1
    ensures var r := Join(parts, sep);
      && |r| == SumLen(parts) + (|parts| - 1) * |sep|
      && parts[0] <= r
      && |parts[|parts| - 1]| <= |r| && r[|r| - |parts[|parts| - 1]|..] == parts[|parts| - 1]
      && (|parts| >= 2 ==> r[|parts[0]|..|parts[0]| + |sep|] == sep)
    decreases |parts|
  {
    if |parts| >= 2 {
      var rest := Join(parts[1..], sep);
      JoinShape(parts[1..], sep);
      var last := parts[|parts| - 1];
      assert parts[1..][|parts[1..]| - 1] == last;
      var r := parts[0] + sep + rest;
      assert r[|r| - |last|..] == rest[|rest| - |last|..];
      assert (|parts| - 1) * |sep| == |sep| + (|parts| - 2) * |sep|;
    }
  }

  /** Joining the pieces of a split with the separator gives back the text. */
  lemma {:induction false} JoinSplit(s: string, c: char)
    ensures Join(Split(s, c), [c]) == s
    decreases |s|
  {
    if |s| > 0 {
      var rest := Split(s[1..], c);
      JoinSplit(s[1..], c);
      if s[0] == c {
        assert ([""] + rest)[1..] == rest;
        calc {
          Join(Split(s, c), [c]);
          "" + [c] + Join(rest, [c]);
          [s[0]] + s[1..];
        }
      } else if |rest| == 1 {
        assert Split(s, c) == [[s[0]] + rest[0]];
      } else {
        var r := Split(s, c);
        assert r[1..] == rest[1..];
        calc {
          Join(r, [c]);
          [s[0]] + rest[0] + [c] + Join(rest[1..], [c]);
          [s[0]] + Join(rest, [c]);
        }
      }
    }
  }

  /** Text without the separator splits into one piece, itself. */
  lemma {:induction false} SplitWithoutSeparator(a: string, c: char)
    requires c !in a
    ensures Split(a, c) == [a]
    decreases |a|
  {
    if |a| > 0 {
      SplitWithoutSeparator(a[1..], c);
      assert [a[0]] + a[1..] == a;
    }
  }

  /** A separator-free first piece followed by the separator is split off as such. */
  lemma {:induction false} SplitAfterPiece(a: string, b: string, c: char)
    requires c !in a
    ensures Split(a + [c] + b, c) == [a] + Split(b, c)
    decreases |a|
  {
    var s := a + [c] + b;
    if |a| == 0 {
      assert s[1..] == b;
    } else {
      assert s[1..] == a[1..] + [c] + b;
      SplitAfterPiece(a[1..], b, c);
      assert [a[0]] + a[1..] == a;
    }
  }

  /** Splitting a join of separator-free pieces gives back the pieces. */
  lemma {:induction false} SplitJoin(parts: seq<string>, c: char)
    requires |parts| >= 1
    requires forall i :: 0 <= i < |parts| ==> c !in parts[i]
    ensures Split(Join(parts, [c]), c) == parts
    decreases |parts|
  {
    if |parts| == 1 {
      SplitWithoutSeparator(parts[0], c);
    } else {
      SplitAfterPiece(parts[0], Join(parts[1..], [c]), c);
      SplitJoin(parts[1..], c);
      assert [parts[0]] + parts[1..] == parts;
    }
  }

  /** `s.split(c)[0]` is the longest prefix of `s` without `c`: it is all of
      `s`, or it stops right before the first `c`. */
  lemma {:induction false} SplitHead(s: string, c: char)
    ensures Split(s, c)[0] <= s
    ensures c !in Split(s, c)[0]
    ensures Split(s, c)[0] == s || s[|Split(s, c)[0]|] == c
    decreases |s|
  {
    if |s| > 0 && s[0] != c {
      SplitHead(s[1..], c);
    }
  }

  /** ASCII case folding of one character. */
  function LowerChar(ch: char): (r: char)
    ensures !('A' <= r <= 'Z')
    ensures r != ch ==> 'A' <= ch <= 'Z' && r as int == ch as int + 32
  {
    if 'A' <= ch <= 'Z' then (ch as int + 32) as char else ch
  }

  /** `s.lower()`, restricted to ASCII letters. */
  function Lower(s: string): (r: string)
    ensures |r| == |s|
    ensures forall i :: 0 <= i < |s| ==> r[i] == LowerChar(s[i])
  {
    if |s| == 0 then "" else [LowerChar(s[0])] + Lower(s[1..])
  }

  /** Lower-casing twice is lower-casing once. */
  lemma LowerIdempotent(s: string)
    ensures Lower(Lower(s)) == Lower(s)
  {
    assert forall i :: 0 <= i < |s| ==> LowerChar(LowerChar(s[i])) == LowerChar(s[i]);
  }

  /** Lower-casing neither creates nor removes a character that is not a letter. */
  lemma LowerKeepsNonLetter(s: string, ch: char)
    requires !('A' <= ch <= 'Z') && !('a' <= ch <= 'z')
    ensures ch in Lower(s) <==> ch in s
  {
    if ch in s {
      var i :| 0 <= i < |s| && s[i] == ch;
      assert Lower(s)[i] == ch;
    }
    if ch in Lower(s) {
      var i :| 0 <= i < |s| && Lower(s)[i] == ch;
      assert s[i] == ch;
    }
  }

  /** Python's normalisation of a slice bound `i` for a sequence of length `n`. */
  function SliceBound(i: int, n: nat): (r: nat)
    ensures r <= n
    ensures 0 <= i <= n ==> r == i
    ensures -(n as int) <= i < 0 ==> r == n + i
    ensures i > n ==> r == n
    ensures i < -(n as int) ==> r == 0
  {
    if i < 0 then (if n + i < 0 then 0 else n + i)
    else if i > n then n
    else i
  }

  /** `s[start:stop]`: never fails; empty when the bounds cross. */
  function PySlice(s: string, start: int, stop: int): (r: string)
    ensures |r| <= |s|
    ensures |r| ==
      (if SliceBound(start, |s|) < SliceBound(stop, |s|)
       then SliceBound(stop, |s|) - SliceBound(start, |s|) else 0)
    ensures SliceBound(start, |s|) + |r| <= |s|
    ensures r == s[SliceBound(start, |s|)..SliceBound(start, |s|) + |r|]
  {
    var a, b := SliceBound(start, |s|), SliceBound(stop, |s|);
    if a < b then s[a..b] else ""
  }

  /** Position of the first `x` in `xs`. */
  function IndexOf<T(==)>(xs: seq<T>, x: T): (i: nat)
    requires x in xs
    ensures i < |xs| && xs[i] == x && x !in xs[..i]
  {
    if xs[0] == x then 0
    else
      assert x in xs[1..];
      1 + IndexOf(xs[1..], x)
  }

  /** `xs.remove(x)`: drops the first occurrence of `x`, keeping the order of
      everything else. Python raises ValueError when `x` is absent. */
  function RemoveFirst<T(==)>(xs: seq<T>, x: T): (r: seq<T>)
    requires x in xs
    ensures r == xs[..IndexOf(xs, x)] + xs[IndexOf(xs, x) + 1..]
  {
    if xs[0] == x then xs[1..]
    else
      assert x in xs[1..];
      assert xs[1..][..IndexOf(xs[1..], x)] == xs[1..1 + IndexOf(xs[1..], x)];
      [xs[0]] + RemoveFirst(xs[1..], x)
  }

  /** Removing one `x` takes exactly one `x` out of the multiset of elements. */
  lemma RemoveFirstMultiset<T>(xs: seq<T>, x: T)
    requires x in xs
    ensures multiset(RemoveFirst(xs, x)) == multiset(xs) - multiset{x}
  {
    var i := IndexOf(xs, x);
    assert xs == xs[..i] + [x] + xs[i + 1..];
  }

  /** Appending an element that was absent and then removing it restores the list. */
  lemma AppendThenRemove<T>(xs: seq<T>, x: T)
    requires x !in xs
    ensures RemoveFirst(xs + [x], x) == xs
  {
    assert x in xs + [x];
    var i := IndexOf(xs + [x], x);
    assert i == |xs|;
  }

  /** The decimal digit `d` as a character. */
  function DigitChar(d: nat): (ch: char)
    requires d < 10
    ensures '0' <= ch <= '9' && ch as int - '0' as int == d
  {
    ('0' as int + d) as char
  }

  predicate IsDigits(s: string) {
    forall i :: 0 <= i < |s| ==> '0' <= s[i] <= '9'
  }

  /** The number a string of decimal digits denotes. */
  function DigitsValue(s: string): nat
    requires IsDigits(s)
  {
    if |s| == 0 then 0
    else DigitsValue(s[..|s| - 1]) * 10 + (s[|s| - 1] as int - '0' as int)
  }

  /** `str(n)` for a non-negative int: decimal digits, no leading zero. */
  function NatToString(n: nat): (r: string)
    ensures |r| >= 1 && IsDigits(r)
    ensures r[0] == '0' <==> n == 0
  {
    if n < 10 then [DigitChar(n)] else NatToString(n / 10) + [DigitChar(n % 10)]
  }

  /** Reading the digits of `str(n)` back gives `n`. */
  lemma {:induction false} NatToStringRoundTrip(n: nat)
    ensures DigitsValue(NatToString(n)) == n
  {
    if n >= 10 {
      var r := NatToString(n);
      assert r[..|r| - 1] == NatToString(n / 10);
      NatToStringRoundTrip(n / 10);
    }
  }
}

=== FILE: wrapper.dfy ===
/** wrapper.py: the shared `SpigotData` object with its bounded, counted
    scrollback, and the pure functions that specify it. */
module Wrapper {
  import opened GameState

  /** `deque(maxlen=512)`: the number of scrollback lines kept. */
  const MaxLen: nat := 512

  function Min(a: int, b: int): int { if a < b then a else b }
  function Max(a: int, b: int): int { if a < b then b else a }

  /** The newest `MaxLen` entries of `s`, in order. */
  function Window(s: seq<string>): (r: seq<string>)
    ensures |r| == Min(|s|, MaxLen)
  {
    s[|s| - Min(|s|, MaxLen)..]
  }

  /** The deque after `append(m)`. */
  function Pushed(buf: seq<string>, m: string): (r: seq<string>)
    requires |buf| <= MaxLen
    ensures |r| == Min(|buf| + 1, MaxLen)
  {
    if |buf| < MaxLen then buf + [m] else buf[1..] + [m]
  }

  /** After `append(m)`, `m` is the last entry and the entries before it are
      the old ones in order, minus the oldest exactly when the deque was full. */
  lemma PushedSpec(buf: seq<string>, m: string)
    requires |buf| <= MaxLen
    ensures var r := Pushed(buf, m);
      r[|r| - 1] == m &&
      r[..|r| - 1] == (if |buf| == MaxLen then buf[1..] else buf)
  {
  }

  /** The deque after appending every line of `ms` in turn. */
  function PushedAll(buf: seq<string>, ms: seq<string>): (r: seq<string>)
    requires |buf| <= MaxLen
    ensures |r| <= MaxLen
    decreases |ms|
  {
    if |ms| == 0 then buf
    else Pushed(PushedAll(buf, ms[..|ms| - 1]), ms[|ms| - 1])
  }

  /** Appending a batch and then one more line is appending the longer batch. */
  lemma PushedAllSnoc(buf: seq<string>, ms: seq<string>, m: string)
    requires |buf| <= MaxLen
    ensures PushedAll(buf, ms + [m]) == Pushed(PushedAll(buf, ms), m)
  {
    assert (ms + [m])[..|ms|] == ms;
  }

  /** Appending to a window and cutting again is cutting the whole history. */
  lemma WindowOfWindow(s: seq<string>, t: seq<string>)
    ensures Window(Window(s) + t) == Window(s + t)
  {
    var k := |s| - Min(|s|, MaxLen);
    assert Window(s) + t == (s + t)[k..];
  }

  /** One append keeps exactly the newest `MaxLen` lines of the history. */
  lemma PushedIsWindow(buf: seq<string>, m: string)
    requires |buf| <= MaxLen
    ensures Pushed(buf, m) == Window(buf + [m])
  {
  }

  /** However many lines are appended, the deque holds the newest `MaxLen`
      lines of everything it was given, oldest first. */
  lemma {:induction false} PushedAllWindow(buf: seq<string>, ms: seq<string>)
    requires |buf| <= MaxLen
    ensures PushedAll(buf, ms) == Window(buf + ms)
    decreases |ms|
  {
    if |ms| == 0 {
      assert buf + ms == buf;
    } else {
      var init, m := ms[..|ms| - 1], ms[|ms| - 1];
      PushedAllWindow(buf, init);
      PushedIsWindow(PushedAll(buf, init), m);
      WindowOfWindow(buf + init, [m]);
      assert buf + init + [m] == buf + ms;
    }
  }

  /** Appending two batches in turn is appending their concatenation. */
  lemma {:induction false} PushedAllAppend(buf: seq<string>, xs: seq<string>, ys: seq<string>)
    requires |buf| <= MaxLen
    ensures PushedAll(buf, xs + ys) == PushedAll(PushedAll(buf, xs), ys)
    decreases |ys|
  {
    if |ys| == 0 {
      assert xs + ys == xs;
    } else {
      var init, y := ys[..|ys| - 1], ys[|ys| - 1];
      assert xs + ys == (xs + init) + [y];
      PushedAllSnoc(buf, xs + init, y);
      PushedAllAppend(buf, xs, init);
      PushedAllSnoc(PushedAll(buf, xs), init, y);
      assert init + [y] == ys;
    }
  }

  /** Starting empty, the deque length is `min(count, 512)`: the relation the
      counter keeps with the deque while only appends happen. */
  lemma FreshHistory(ms: seq<string>)
    ensures |PushedAll([], ms)| == Min(|ms|, MaxLen)
    ensures PushedAll([], ms) == ms[|ms| - Min(|ms|, MaxLen)..]
  {
    PushedAllWindow([], ms);
    assert [] + ms == ms;
  }

  /** Appending a batch keeps `len(scrollback) == min(msg_num, 512)` when
      the counter grows by the batch size. */
  lemma {:induction false} PushedAllKeepsCount(buf: seq<string>, n: nat, ms: seq<string>)
    requires |buf| == Min(n, MaxLen)
    ensures |PushedAll(buf, ms)| == Min(n + |ms|, MaxLen)
    decreases |ms|
  {
    if |ms| > 0 {
      PushedAllKeepsCount(buf, n, ms[..|ms| - 1]);
    }
  }

  /** `id_first_msg`: the id of the newest evicted line (ids start at 1),
      0 while nothing has been evicted. */
  function FirstId(msgNum: nat): (r: nat)
    ensures r + Min(msgNum, MaxLen) == msgNum
  {
    if msgNum > MaxLen then msgNum - MaxLen else 0
  }

  /** The id of the line at `index` in a counted deque. */
  function EntryId(msgNum: nat, index: nat): nat {
    FirstId(msgNum) + index + 1
  }

  /** The answer to "what happened since line `msgId`": `None` (already
      current), the retained lines, or a rejected request (`islice`'s
      ValueError for the as-written query). */
  datatype Since = UpToDate | Lines(lines: seq<string>) | Rejected

  /** `sys.maxsize` on a 64-bit build: the largest start `islice` accepts
      in CPython 3.4 to 3.6, whose behaviour this model follows. */
  const MaxSize: int := 0x7FFF_FFFF_FFFF_FFFF

  /** `scrollback_since` exactly as written: the slice starts at
      `msg_id - id_first_msg + 1`; `islice` rejects a start that is negative
      or (in CPython 3.4 to 3.6) above `sys.maxsize`, and gives nothing for a
      start at or past the end. */
  function SinceAsWritten(buf: seq<string>, msgNum: nat, msgId: int): (r: Since)
    ensures r.UpToDate? <==> msgId == msgNum
    ensures r.Rejected? <==>
      msgId != msgNum &&
      (msgId - FirstId(msgNum) + 1 < 0 || msgId - FirstId(msgNum) + 1 > MaxSize)
    ensures r.Lines? ==> |r.lines| == Max(0, |buf| - (msgId - FirstId(msgNum) + 1))
    ensures r.Lines? ==> r.lines == buf[|buf| - |r.lines|..]
  {
    if msgId == msgNum then UpToDate
    else
      var cutoff := msgId - FirstId(msgNum) + 1;
      if cutoff < 0 || cutoff > MaxSize then Rejected
      else if cutoff >= |buf| then Lines([])
      else Lines(buf[cutoff..])
  }

  /** The corrected query: `None` when current, as the doc comment says;
      otherwise every retained line whose id is above `msgId`, and all
      retained lines for an id already evicted. An id the counter has not
      reached is rejected: that choice is this model's, the doc comment says
      nothing about such ids. */
  function SinceIntended(buf: seq<string>, msgNum: nat, msgId: int): (r: Since)
    ensures r.UpToDate? <==> msgId == msgNum
    ensures r.Rejected? <==> msgId > msgNum
    ensures r.Lines? ==> |r.lines| <= |buf| && r.lines == buf[|buf| - |r.lines|..]
  {
    if msgId == msgNum then UpToDate
    else if msgId > msgNum then Rejected
    else
      var cutoff := Max(msgId - FirstId(msgNum), 0);
      if cutoff >= |buf| then Lines([])
      else Lines(buf[cutoff..])
  }

  /** On a counted deque the corrected query returns exactly the lines whose
      ids are above `msgId`: a line is in the answer iff its id exceeds `msgId`. */
  lemma SinceIntendedExact(buf: seq<string>, msgNum: nat, msgId: int)
    requires |buf| == Min(msgNum, MaxLen)
    requires msgId < msgNum
    ensures SinceIntended(buf, msgNum, msgId).Lines?
    ensures var r := SinceIntended(buf, msgNum, msgId).lines;
      |r| == Min(|buf|, msgNum - msgId) &&
      forall j :: 0 <= j < |buf| ==> (j >= |buf| - |r| <==> EntryId(msgNum, j) > msgId)
  {
  }

  /** An id from the evicted region answers the same as the id just before
      the oldest retained line: every retained line. */
  lemma SinceIntendedEvicted(buf: seq<string>, msgNum: nat, msgId: int)
    requires |buf| == Min(msgNum, MaxLen)
    requires 0 <= msgId < FirstId(msgNum)
    ensures SinceIntended(buf, msgNum, msgId) == SinceIntended(buf, msgNum, FirstId(msgNum))
    ensures SinceIntended(buf, msgNum, msgId) == Lines(buf)
  {
    assert msgNum > MaxLen && |buf| == MaxLen;
    assert buf[0..] == buf;
    assert SinceIntended(buf, msgNum, FirstId(msgNum)) == Lines(buf);
  }

  /** The as-written query drops the oldest new line: where the corrected
      query answers `l`, starting with the line whose id is `msgId + 1`, the
      source answers `l[1..]`. */
  lemma AsWrittenDropsFirstNew(buf: seq<string>, msgNum: nat, msgId: int)
    requires |buf| == Min(msgNum, MaxLen)
    requires FirstId(msgNum) <= msgId < msgNum
    ensures SinceIntended(buf, msgNum, msgId).Lines?
    ensures var l := SinceIntended(buf, msgNum, msgId).lines;
      |l| >= 1 && EntryId(msgNum, |buf| - |l|) == msgId + 1 &&
      SinceAsWritten(buf, msgNum, msgId) == Lines(l[1..])
  {
  }

  /** A concrete case: one line appended, the client has seen none, and the
      source answers with no lines at all. */
  lemma AsWrittenMissesOnlyLine()
    ensures SinceAsWritten(["a"], 1, 0) == Lines([])
    ensures SinceIntended(["a"], 1, 0) == Lines(["a"])
  {
  }

  /** An id the counter has not reached, up to `sys.maxsize`, is not
      rejected by the source: it yields an empty answer. */
  lemma AsWrittenPastCounter(buf: seq<string>, msgNum: nat, msgId: int)
    requires |buf| == Min(msgNum, MaxLen)
    requires msgId > msgNum
    requires msgId - FirstId(msgNum) + 1 <= MaxSize
    ensures SinceAsWritten(buf, msgNum, msgId) == Lines([])
    ensures SinceIntended(buf, msgNum, msgId) == Rejected
  {
  }

  /** An id so large that the start exceeds `sys.maxsize` makes `islice`
      raise in CPython 3.4 to 3.6, even on a fresh, empty deque. */
  lemma AsWrittenHugeId()
    ensures SinceAsWritten([], 0, MaxSize) == Rejected
    ensures SinceAsWritten([], 0, MaxSize - 1) == Lines([])
  {
  }

  /** A client one id behind the line it last saw is served exactly: inside
      the retained window the source's answer for `msgId` is the corrected
      answer for `msgId + 1`. */
  lemma AsWrittenIsOneBehind(buf: seq<string>, msgNum: nat, msgId: int)
    requires |buf| == Min(msgNum, MaxLen)
    requires FirstId(msgNum) <= msgId + 1 < msgNum
    ensures SinceAsWritten(buf, msgNum, msgId) == SinceIntended(buf, msgNum, msgId + 1)
  {
  }

  /** After more than 513 appends from a fresh start the source rejects
      `since(0)`, while the corrected query answers the newest 512 lines. */
  lemma SinceZeroAfterOverflow(ms: seq<string>)
    requires |ms| > MaxLen + 1
    ensures SinceAsWritten(PushedAll([], ms), |ms|, 0) == Rejected
    ensures SinceIntended(PushedAll([], ms), |ms|, 0) == Lines(ms[|ms| - MaxLen..])
  {
    var buf := PushedAll([], ms);
    FreshHistory(ms);
    assert |buf| == MaxLen && FirstId(|ms|) == |ms| - MaxLen;
    assert buf[0..] == buf;
  }

  /** `SpigotData`: state shared between the console reader and the web front end. */
  class SpigotData {
    /** The integer status the constructor sets (0); its other writers are
        outside this model. */
    var status: int
    const diag: DiagData
    const game: GameData
    /** The deque, oldest line first. */
    var scrollback: seq<string>
    /** `msg_num`: lines appended since start or the last `clearscrollback`. */
    var msgNum: nat
    /** The outbound command queue, oldest first. */
    var commands: seq<string>

    /** The deque never exceeds its `maxlen`. */
    ghost predicate Valid()
      reads this
    {
      |scrollback| <= MaxLen
    }

    /** The deque holds one line per counted append, up to its capacity. */
    ghost predicate Counted()
      reads this
    {
      |scrollback| == Min(msgNum, MaxLen)
    }

    constructor ()
      ensures Valid() && Counted()
      ensures status == 0 && scrollback == [] && msgNum == 0 && commands == []
      ensures fresh(diag) && fresh(game)
      ensures diag.startupTime == "0" && game.players == [] && game.status == Running
    {
      status := 0;
      diag := new DiagData();
      game := new GameData();
      scrollback := [];
      msgNum := 0;
      commands := [];
    }

    /** `add_message`: append with eviction and count the line. */
    method AddMessage(message: string)
      requires Valid()
      modifies this`scrollback, this`msgNum
      ensures Valid()
      ensures scrollback == Pushed(old(scrollback), message)
      ensures msgNum == old(msgNum) + 1
      ensures old(Counted()) ==> Counted()
    {
      if |scrollback| < MaxLen {
        scrollback := scrollback + [message];
      } else {
        scrollback := scrollback[1..] + [message];
      }
      msgNum := msgNum + 1;
    }

    /** `clearscrollback`: empty the deque and restart the count. */
    method ClearScrollback()
      modifies this`scrollback, this`msgNum
      ensures scrollback == [] && msgNum == 0
      ensures Valid() && Counted()
    {
      scrollback := [];
      msgNum := 0;
    }

    /** `scrollback_since`: a query that changes nothing. */
    method ScrollbackSince(msgId: int) returns (r: Since)
      ensures r == SinceAsWritten(scrollback, msgNum, msgId)
    {
      if msgId == msgNum {
        return UpToDate;
      }
      var idFirstMsg := 0;
      if msgNum > MaxLen {
        idFirstMsg := msgNum - MaxLen;
      }
      var cutoffIndex := msgId - idFirstMsg + 1;
      if cutoffIndex < 0 || cutoffIndex > MaxSize {
        return Rejected;
      }
      r := Lines(if cutoffIndex >= |scrollback| then [] else scrollback[cutoffIndex..]);
    }
  }
}
